=== FILE: README.md ===
# Pokémon trainer teams — a Dafny model of the service core

This project models the domain logic of a NestJS back end that manages
Pokémon teams and the trainer records that own them:

- `EquipoService` creates, reads, updates and deletes a team: a trimmed
  name and a roster of at most six Pokémon ids. Each id is checked against
  an upstream Pokémon API that fails closed. The roster is stored as a JSON
  text column. Errors are 400 (bad trainer id, roster too long, unknown
  Pokémon), 404 (unknown team) or 500 (anything else).
- `EquipoEntrenadorService` manages the record linking a trainer to a list
  of team ids and a selected team. It validates nothing. It wraps every
  failure, its own 404s included, as 500. Deleting a record deletes its
  teams one at a time, then the record, with no rollback.
- The temporary `PokemonService` and `EntrenadorService` keep an in-memory
  list loaded over HTTP: the Pokémon list from a mock endpoint, the
  trainers from the trainers API. They list it and look records up by id.

Every operation is a pure function. A write takes the database state and
returns a `Step`: its outcome, the new state, and the ids it sent to the
existence oracle. A read returns a bare `Result`. The temporary services'
operations take and return the cached list instead of the database:

- The database is two finite maps, `Equipos` and `EquiposEntrenador`, keyed
  by identity counters (`Store`). The subset type `Database` carries the
  invariant that each counter lies above every key of its table.
- Database failures are injected with `Faults`. `FailAt(k)` makes the k-th
  database call of an operation throw, counting from 0 in issue order.
- The oracle is a function from Pokémon id to HTTP response (`Oracle.Api`).
- `Number.parseInt` and `String.prototype.trim` are modelled after their
  ECMA-262 algorithms (`JsText`).
- The untyped payloads of the temporary services are a small JavaScript
  value type (`JsValue`). The shared cache logic is in `Catalog`.

Modules: `Results`, `JsText`, `Codec`, `Oracle`, `Store`, `EquipoService`,
`EquipoEntrenadorService`, `Consistency`, `JsValue`, `Catalog`,
`PokemonCatalog`, `EntrenadorCatalog`.

Four behaviours of the code worth knowing:

- A missing trainer-team record is reported as 500, not 404. The same holds
  for an empty per-trainer listing.
- Team names are not required to be non-empty after trimming.
- The trainer oracle `getEntrenador` is never consulted.
- A lookup in a temporary cache that meets a `null` or `undefined` element
  before a match is 500, not 404. The `e.id` read throws a `TypeError`.

## Model

| member | source | states |
|---|---|---|
| `JsText.Trim` | src/services/equipo.service.ts:67 | The trimmed name lies inside the input between two all-white-space margins, and neither starts nor ends with white space. |
| `JsText.TrimUnique` | src/services/equipo.service.ts:77 | Any white-space-padded infix that has no white space at either end is the trimmed name, so the two facts above determine `trim`. |
| `JsText.TrimIdempotent` | src/services/equipo.service.ts:149 | Trimming an already trimmed name changes nothing. |
| `JsText.ParseDecimal` | src/services/equipo.service.ts:46 | Every decimal rendering of an integer trainer id parses back to that integer. |
| `JsText.NoDigitIsNaN` | src/services/equipo.service.ts:46-48 | A trainer id with no decimal digit at all is NaN, so it takes the 400 branch. |
| `Oracle.Exists` | src/services/equipo.service.ts:33-42 | `getPokemon` is true exactly for a reply with status 200; every other status and every rejection is false, and it never throws. |
| `Oracle.NoneMissing` | src/services/equipo.service.ts:57-59 | No answer in the list of all answers is false exactly when every roster id, at every position, passes the oracle. |
| `Store.InsertEquipo` | src/services/equipo.service.ts:65-71 | `sp_CrearEquipo` stores the row under a key the table did not hold and changes nothing else. |
| `Store.UpdateEquipo` | src/services/equipo.service.ts:147-151 | `sp_ActualizarEquipo` replaces name and roster of that row only and keeps its other columns and every other row. |
| `Store.DeleteEquipo` | src/services/equipo.service.ts:184 | `sp_EliminarEquipo` removes exactly that key from `Equipos`. |
| `Store.InsertEquipoEntrenador` | src/services/equipo-entrenador.service.ts:48-54 | `sp_CrearEquipoEntrenador` stores the row under a fresh key and leaves `Equipos` alone. |
| `Store.UpdateEquipoEntrenador` | src/services/equipo-entrenador.service.ts:146-151 | `sp_ActualizarEquipoEntrenador` replaces the whole row at that key and leaves `Equipos` alone. |
| `Store.DeleteEquipoEntrenador` | src/services/equipo-entrenador.service.ts:189 | `sp_EliminarEquipoEntrenador` removes exactly that key from `EquiposEntrenador`. |
| `EquipoService.CrearEquipo` | src/services/equipo.service.ts:44-91 | See the note on `CrearEquipo` below the table. |
| `EquipoService.ObtenerEquipo` | src/services/equipo.service.ts:93-122 | Succeeds exactly when the query works and the id is stored. An unknown id is exactly 404, not wrapped as 500. The stored name and the roster that was encoded into the column are returned. |
| `EquipoService.ActualizarEquipo` | src/services/equipo.service.ts:124-167 | See the note on `ActualizarEquipo` below the table. |
| `EquipoService.EliminarEquipo` | src/services/equipo.service.ts:169-194 | 404 exactly when the query works and the id is unknown. 500 exactly when the query throws, or when the team exists and the delete throws. No error writes anything. Success means the id was stored and both calls worked, and then only that id leaves `Equipos`. |
| `EquipoService.CrearThenObtener` | src/services/equipo.service.ts:65-114 | Reading a team right after creating it returns the generated id, the trimmed name and the roster in input order. |
| `EquipoService.ActualizarThenObtener` | src/services/equipo.service.ts:146-158 | Reading a team right after updating it returns the new trimmed name and roster. |
| `EquipoService.ActualizarIgnoresOracle` | src/services/equipo.service.ts:131-132 | Two oracles that disagree on every id give the same update outcome and the same database. |
| `EquipoService.EliminarThenObtener` | src/services/equipo.service.ts:183-184 | A deleted team reads as 404. |
| `EquipoService.AshTeamExample` | src/services/equipo.service.ts:44-79 | Trainer `"5"`, name `" Ash Team "` and roster [1, 4, 7], all known, create a team named `"Ash Team"` with roster [1, 4, 7]. |
| `EquipoService.SevenPokemonExample` | src/services/equipo.service.ts:51-54 | A roster of seven is 400 with no write, whatever the oracle says. |
| `EquipoEntrenadorService.CrearEquipoEntrenador` | src/services/equipo-entrenador.service.ts:46-71 | Succeeds exactly when the insert does not throw, whatever the inputs: nothing is validated. Returns the inputs unchanged with a fresh id and stores them. Any error is 500 with no write. |
| `EquipoEntrenadorService.CrearThenObtenerEquipoEntrenador` | src/services/equipo-entrenador.service.ts:46-99 | Reading a record right after creating it returns exactly what the create returned: the fresh id and the inputs, team ids in input order. |
| `EquipoEntrenadorService.ObtenerEquipoEntrenador` | src/services/equipo-entrenador.service.ts:73-99 | Succeeds exactly when the query works and the record exists. Returns its trainer, its selected team and its team ids in stored order. A missing record is 500, like every other error. |
| `EquipoEntrenadorService.Scan` | src/services/equipo-entrenador.service.ts:103-110 | Returns exactly the records of that trainer, each decoded, in strictly increasing key order. |
| `EquipoEntrenadorService.ObtenerEquiposPorEntrenador` | src/services/equipo-entrenador.service.ts:101-126 | Fails exactly when the query throws or no record has that trainer; the failure is 500. Otherwise returns a non-empty list with every record of the trainer, each decoded, without repeats. |
| `EquipoEntrenadorService.ActualizarEquipoEntrenador` | src/services/equipo-entrenador.service.ts:128-165 | Succeeds exactly when the record exists and both calls work. Then all three columns are replaced under the same key and `Equipos` is untouched. A missing record is 500 with no write. |
| `EquipoEntrenadorService.ActualizarThenObtenerEquipoEntrenador` | src/services/equipo-entrenador.service.ts:128-165 | Reading a record right after updating it returns the same id with the new trainer, team ids and selected team. |
| `EquipoEntrenadorService.Cascade` | src/services/equipo-entrenador.service.ts:183-186 | Deletes the teams in list order. It succeeds exactly when none of its calls throws, and then exactly the listed teams are gone. If the delete at position k throws, exactly the teams before k are gone. Trainer-team records are never touched. |
| `EquipoEntrenadorService.EliminarEquipoEntrenador` | src/services/equipo-entrenador.service.ts:167-196 | A missing record deletes nothing. Success deletes exactly the listed teams and the record. A failed team delete at position k leaves the teams before k deleted and the record in place. A failed record delete leaves all teams deleted and the record in place. Every error is 500. |
| `Consistency.CascadeLeavesNoOrphans` | src/services/equipo-entrenador.service.ts:176-189 | After a successful delete no listed team can be read (404), unlisted teams read as before, and the record is gone. |
| `Consistency.CascadeStopsAt` | src/services/equipo-entrenador.service.ts:179-194 | When the delete of team k throws, the result is 500 and teams before k read as 404. Later teams not listed before k read as before, and the record reads as before: nothing is rolled back. |
| `Consistency.TwoTeamCascade` | src/services/equipo-entrenador.service.ts:167-191 | Deleting a new record that lists two existing teams makes both teams and the record unreadable. |
| `Codec.ParseStringify` | src/services/equipo.service.ts:113 | Reading a JSON column returns the sequence that was written to it. |
| `JsValue.Member` | src/services/temporal/pokemon.service.ts:28 | A property read throws exactly on `null` or `undefined`. It yields an object's own field, or `undefined` when the field is absent. |
| `Catalog.Load` | src/services/temporal/pokemon.service.ts:22-42 | Succeeds exactly for a received payload that passes the three-way shape test, and then the cache is exactly the payload's array. Otherwise the result is 500 and the cache is unchanged. |
| `Catalog.Listing` | src/services/temporal/pokemon.service.ts:44-46 | The listing is an object whose only field is `key`, and that field holds the cache as it is. |
| `Catalog.FindStop` | src/services/temporal/pokemon.service.ts:49 | `find` stops at the first element that is nullish or has the id, and every element before it is neither. |
| `Catalog.FindById` | src/services/temporal/pokemon.service.ts:48-59 | Succeeds exactly when some element has the id with no nullish element before it, and then returns the first such element. 404 exactly when no element is nullish or has the id. 500 exactly when a nullish element comes before any match. |
| `Catalog.FailedLoadsKeepCache` | src/services/temporal/pokemon.service.ts:35-40 | A series of failed loads leaves the cache as it was. |
| `Catalog.LastLoadWins` | src/services/temporal/pokemon.service.ts:32 | After a series of loads the cache is exactly the array of the last load that succeeded. |
| `PokemonCatalog.CargarPokemones` | src/services/temporal/pokemon.service.ts:22-42 | Succeeds exactly when `pokemones` is a truthy array, and then the list is exactly that array. Otherwise the result is 500 and the list is unchanged. |
| `PokemonCatalog.ObtenerPokemones` | src/services/temporal/pokemon.service.ts:44-46 | `pokemones` of the result is the list unchanged. |
| `PokemonCatalog.ObtenerPokemonPorId` | src/services/temporal/pokemon.service.ts:48-59 | Returns the first record with that id. With no nullish record, 404 comes exactly when no record has the id. |
| `PokemonCatalog.NotFoundBeforeLoad` | src/services/temporal/pokemon.service.ts:11-56 | Starting from the empty list, as long as no load has succeeded every lookup is 404. |
| `EntrenadorCatalog.CargarEntrenadores` | src/services/temporal/entrenador.service.ts:20-38 | Succeeds exactly when `trainers` is a truthy array, and then the list is exactly that array. Otherwise the result is 500 and the list is unchanged. |
| `EntrenadorCatalog.ObtenerEntrenadores` | src/services/temporal/entrenador.service.ts:40-42 | `entrenadores` of the result is the list unchanged. |
| `EntrenadorCatalog.ObtenerEntrenadorPorId` | src/services/temporal/entrenador.service.ts:44-55 | Returns the first record with that id. With no nullish record, 404 comes exactly when no record has the id. |
| `EntrenadorCatalog.NotFoundBeforeLoad` | src/services/temporal/entrenador.service.ts:11-52 | Starting from the empty list, as long as no load has succeeded every lookup is 404. |

`CrearEquipo` checks these in order:

1. A trainer id that does not parse gives 400. The oracle is not called and
   nothing is written.
2. More than six ids give 400 with no oracle call and no write.
3. Otherwise every id is sent to the oracle, with no short-circuit.
4. Any rejected id gives 400 with no write.

It succeeds exactly when all four checks pass and the insert works. Then it
returns a fresh id, the trimmed name and the roster unchanged, and stores
exactly that row. The result is never 404. It is 400 exactly when one of the
checks fails, and 500 exactly when they all pass and the insert throws.
Duplicate ids are accepted.

`ActualizarEquipo`:

- It is 400 exactly when there are more than six ids. Otherwise every id is
  sent to the oracle.
- It is 404 exactly when the roster fits, the existence query works and the
  id is unknown. Nothing is written.
- It is 500 exactly when the roster fits and either the query throws or the
  team exists and the update throws.
- It succeeds exactly when the roster fits, the team exists and both
  database calls work. The oracle plays no part in that.
- On success it returns the same id with the trimmed name and the new
  roster. Only name and roster of that row change.

## Left out

- HTTP transport, base URLs and configuration of the Pokémon and trainer
  APIs. Each request is the `Oracle.Api` parameter. `Promise.all` is
  modelled as issuing every request and then deciding.
- `getEntrenador` (src/services/equipo-entrenador.service.ts:35-44) has
  the same contract as `Oracle.Exists`, which models both. The service never
  calls it: every trainer-team write records `probed == []`, and the
  trainer-team reads take no oracle.
- The connection pool, SQL text and parameter binding of
  `database.service.ts`. The stored procedures' bodies are not visible.
  They are the primitives of `Store`, and `sp_EliminarEquipo` on an absent
  key is taken to succeed without effect.
- Ids are strings in the source and `nat` here. A non-numeric id reaching
  SQL, which would make the query throw, is not modelled.
- The JSON text format of the two list columns, and a `JSON.parse` failure
  on a corrupted column. `Codec` keeps only the round-trip law.
- JavaScript number precision: `parseInt` of ids beyond 2^53, and
  non-integer numbers in upstream payloads. Integers are unbounded here.
- Row order of `obtenerEquiposPorEntrenador`. The query has no `ORDER BY`,
  so key order is taken.
- Partial effects of a failing database call. Each stored-procedure call
  is taken to be atomic: a call that throws has written nothing, which is
  what `Faults` expresses. A call that commits and then fails is not
  modelled, for example when the `result.recordset[0].id` read after an
  insert throws (src/services/equipo.service.ts:71,
  src/services/equipo-entrenador.service.ts:54) or a client-side time-out
  rejects a request the server has committed. In those cases the program
  answers 500 with the row stored, while "no write on error" holds here.
- Concurrency. Requests are modelled as running one at a time: nothing
  interleaves between an existence query and the write that follows it
  (`actualizarEquipo`, `eliminarEquipo`, `actualizarEquipoEntrenador`,
  `eliminarEquipoEntrenador`) or between the steps of the cascade. Two
  concurrent deletes of one team can both succeed in the program; here the
  second one is 404.
- Exception messages and logging. Only statuses are kept.
- The un-awaited loads started by the temporary services' constructors,
  and the unhandled rejection a failed one produces. The load is modelled as
  a function of what the request yields.
- `src/services/pokemon.service.ts`, the Firebase service, the controller
  and `main.ts`: HTTP wrappers and bootstrap outside the core.
- PokemonCatalog.ObtenerPokemonPorId: states 404-iff-no-match only when no
  record is `null` or `undefined`. The full three-way characterisation is on
  `Catalog.FindById`, which it returns.
- EntrenadorCatalog.ObtenerEntrenadorPorId: the same restriction, for the
  same reason.

=== FILE: catalog.dfy ===
/** The logic shared by the two temporary lookup services: a cache of
    upstream records, empty at start, replaced by a load when the payload
    has the expected shape, and searched by `id`. `key` names the payload
    field that carries the array. */
module Catalog {
  import opened Results
  import opened JsValue

  /** What the HTTP request of a load yields: the parsed body, or nothing
      when the request is rejected. */
  datatype Fetched = Received(data: Value) | Unreachable

  /** A load's outcome and the cache after it. */
  datatype Loaded = Loaded(result: Result<()>, cache: seq<Value>)

  /** The payload passes `!data || !data[key] || !Array.isArray(data[key])`
      being false. The `||` stops at `!data`, so `data[key]` is only read on
      a truthy, hence non-nullish, `data`. */
  predicate WellFormed(data: Value, key: string) {
    && Truthy(data)
    && Truthy(Member(data, key).value)
    && Member(data, key).value.Arr?
  }

  /** The load: any failure, a rejected request or a malformed payload, is
      500 and keeps the cache; a well-formed payload replaces the cache by
      exactly the array it carries. */
  function Load(cache: seq<Value>, fetched: Fetched, key: string): (l: Loaded)
    ensures l.result.Ok? <==> fetched.Received? && WellFormed(fetched.data, key)
    ensures l.result.Ok? ==> Member(fetched.data, key) == Some(Arr(l.cache))
    ensures l.result.Err? ==> l.result == Err(InternalServerError) && l.cache == cache
  {
    match fetched
    case Unreachable => Loaded(Err(InternalServerError), cache)
    case Received(data) =>
      if !Truthy(data) || !Truthy(Member(data, key).value) || !Member(data, key).value.Arr? then
        Loaded(Err(InternalServerError), cache)
      else
        Loaded(Ok(()), Member(data, key).value.items)
  }

  /** The listing `{ [key]: cache }`. */
  function Listing(cache: seq<Value>, key: string): (v: Value)
    ensures v.Obj? && v.fields.Keys == {key}
    ensures Member(v, key) == Some(Arr(cache))
  {
    Obj(map[key := Arr(cache)])
  }

  /** `e.id === id`, for an element that is not nullish. */
  predicate HasId(v: Value, id: int)
    requires !Nullish(v)
  {
    Member(v, "id") == Some(Num(id))
  }

  /** `cache[i]` is the first element with the id, and no element before it
      is nullish. */
  predicate FirstWithId(cache: seq<Value>, id: int, i: int) {
    && 0 <= i < |cache|
    && !Nullish(cache[i]) && HasId(cache[i], id)
    && forall j :: 0 <= j < i ==> !Nullish(cache[j]) && !HasId(cache[j], id)
  }

  /** Where `find(e => e.id === id)` stops: the first element that is
      nullish (the callback throws) or has the id (the callback is true). */
  function FindStop(cache: seq<Value>, id: int): (k: nat)
    ensures k <= |cache|
    ensures forall j :: 0 <= j < k ==> !Nullish(cache[j]) && !HasId(cache[j], id)
    ensures k < |cache| ==> Nullish(cache[k]) || HasId(cache[k], id)
  {
    if cache == [] then 0
    else if Nullish(cache[0]) || HasId(cache[0], id) then 0
    else 1 + FindStop(cache[1..], id)
  }

  /** The lookup: the first element whose `id` is `id`; 404 when `find`
      comes back `undefined`; 500 when `find` meets a `null` or `undefined`
      element first (the `TypeError` reaches the framework, which answers
      500). */
  function FindById(cache: seq<Value>, id: int): (r: Result<Value>)
    ensures r.Ok? <==> exists i :: FirstWithId(cache, id, i)
    ensures r.Ok? ==> exists i :: FirstWithId(cache, id, i) && cache[i] == r.value
    ensures r == Err(NotFound) <==> forall j :: 0 <= j < |cache| ==> !Nullish(cache[j]) && !HasId(cache[j], id)
    ensures r == Err(InternalServerError) <==>
              exists i :: 0 <= i < |cache| && Nullish(cache[i]) &&
                forall j :: 0 <= j < i ==> !Nullish(cache[j]) && !HasId(cache[j], id)
    ensures r.Err? ==> r.status in {NotFound, InternalServerError}
  {
    var k := FindStop(cache, id);
    if k == |cache| then Err(NotFound)
    else if Nullish(cache[k]) then Err(InternalServerError)
    else
      assert FirstWithId(cache, id, k);
      Ok(cache[k])
  }

  /** The cache after a series of load attempts. */
  function LoadAll(cache: seq<Value>, attempts: seq<Fetched>, key: string): seq<Value>
    decreases attempts
  {
    if attempts == [] then cache
    else LoadAll(Load(cache, attempts[0], key).cache, attempts[1..], key)
  }

  /** A load attempt that succeeds. */
  predicate Succeeds(f: Fetched, key: string) {
    f.Received? && WellFormed(f.data, key)
  }

  /** Attempts that all fail leave the cache as it was. */
  lemma {:induction false} FailedLoadsKeepCache(cache: seq<Value>, attempts: seq<Fetched>, key: string)
    requires forall i :: 0 <= i < |attempts| ==> !Succeeds(attempts[i], key)
    ensures LoadAll(cache, attempts, key) == cache
  {
    if attempts != [] {
      FailedLoadsKeepCache(cache, attempts[1..], key);
    }
  }

  /** The cache holds exactly the array of the last attempt that succeeded. */
  lemma {:induction false} LastLoadWins(cache: seq<Value>, attempts: seq<Fetched>, key: string, i: nat)
    requires i < |attempts| && Succeeds(attempts[i], key)
    requires forall j :: i < j < |attempts| ==> !Succeeds(attempts[j], key)
    ensures Member(attempts[i].data, key) == Some(Arr(LoadAll(cache, attempts, key)))
    decreases attempts
  {
    var next := Load(cache, attempts[0], key).cache;
    if i == 0 {
      FailedLoadsKeepCache(next, attempts[1..], key);
    } else {
      LastLoadWins(next, attempts[1..], key, i - 1);
    }
  }
}

=== FILE: codec.dfy ===
/** The text columns `pokemonesIds` and `equiposIds`, which hold an array
    written with `JSON.stringify` and read back with `JSON.parse`. The text
    format itself is abstracted: a column holds the sequence it was written
    from, so only the round-trip law between the two calls is modelled. */
module Codec {

  datatype Json<T> = JsonArray(items: seq<T>)

  /** `JSON.stringify` of an array. */
  function Stringify<T>(xs: seq<T>): Json<T> {
    JsonArray(xs)
  }

  /** `JSON.parse` of a column written by `Stringify`. */
  function Parse<T>(j: Json<T>): seq<T> {
    j.items
  }

  lemma ParseStringify<T>(xs: seq<T>)
    ensures Parse(Stringify(xs)) == xs
  {
  }

  lemma StringifyInjective<T>(xs: seq<T>, ys: seq<T>)
    ensures Stringify(xs) == Stringify(ys) <==> xs == ys
  {
  }
}

=== FILE: consistency.dfy ===
/** How the two services meet in the `Equipos` table: what the trainer-team
    cascade leaves behind, as seen through the team service's reads. */
module Consistency {
  import opened Results
  import opened Codec
  import opened Store
  import opened EquipoService
  import opened EquipoEntrenadorService

  /** After a successful `eliminarEquipoEntrenador`, no team the record listed
      can be read (404), the record itself is gone, and every other team reads
      as before. */
  lemma CascadeLeavesNoOrphans(db: Database, faults: Faults, id: Id)
    requires EliminarEquipoEntrenador(db, faults, id).result.Ok?
    ensures id in db.equiposEntrenador
    ensures var after := EliminarEquipoEntrenador(db, faults, id).db;
            && (forall t :: t in Parse(db.equiposEntrenador[id].equiposIds) ==>
                  ObtenerEquipo(after, NoFault, t) == Err(NotFound))
            && (forall t :: t !in Parse(db.equiposEntrenador[id].equiposIds) ==>
                  ObtenerEquipo(after, NoFault, t) == ObtenerEquipo(db, NoFault, t))
            && id !in after.equiposEntrenador
            && ObtenerEquipoEntrenador(after, NoFault, id).Err?
  {
  }

  /** When the delete of the team at position `k` throws, the teams before
      `k` are gone, every other listed team still reads as before, and the
      record itself is still there: nothing is rolled back. */
  lemma CascadeStopsAt(db: Database, id: Id, k: nat)
    requires id in db.equiposEntrenador
    requires k < |Parse(db.equiposEntrenador[id].equiposIds)|
    ensures var ids := Parse(db.equiposEntrenador[id].equiposIds);
            var s := EliminarEquipoEntrenador(db, FailAt(k + 1), id);
            && s.result == Err(InternalServerError)
            && (forall j :: 0 <= j < k ==> ObtenerEquipo(s.db, NoFault, ids[j]) == Err(NotFound))
            && (forall j :: k <= j < |ids| && ids[j] !in ids[..k] ==>
                  ObtenerEquipo(s.db, NoFault, ids[j]) == ObtenerEquipo(db, NoFault, ids[j]))
            && ObtenerEquipoEntrenador(s.db, NoFault, id) == ObtenerEquipoEntrenador(db, NoFault, id)
  {
  }

  /** The scenario of a record listing two teams: after the delete, both teams
      and the record are unreadable. */
  lemma TwoTeamCascade(db: Database, t1: Id, t2: Id, sel: Id, entrenadorId: int)
    requires t1 in db.equipos && t2 in db.equipos
    ensures var c := CrearEquipoEntrenador(db, NoFault, entrenadorId, [t1, t2], sel);
            var d := EliminarEquipoEntrenador(c.db, NoFault, c.result.value.id);
            && d.result == Ok(())
            && ObtenerEquipo(d.db, NoFault, t1) == Err(NotFound)
            && ObtenerEquipo(d.db, NoFault, t2) == Err(NotFound)
            && ObtenerEquipoEntrenador(d.db, NoFault, c.result.value.id).Err?
  {
  }
}

=== FILE: entrenador_catalog.dfy ===
/** The temporary `EntrenadorService`: trainer records loaded once from the
    trainers endpoint into an in-memory list, then listed and looked up by
    id. The payload carries them under `trainers`; the listing returns them
    under `entrenadores`. */
module EntrenadorCatalog {
  import opened Results
  import opened JsValue
  import opened Catalog

  /** The service's only state, its `entrenadores` list. */
  datatype EntrenadorService = EntrenadorService(entrenadores: seq<Value>)

  /** The list starts empty. */
  const Initial := EntrenadorService([])

  /** `cargarEntrenadores`: a payload whose `trainers` is an array replaces
      the list by that array; anything else is 500 and keeps the list. */
  function CargarEntrenadores(svc: EntrenadorService, fetched: Fetched): (out: (Result<()>, EntrenadorService))
    ensures out.0.Ok? <==> Succeeds(fetched, "trainers")
    ensures out.0.Ok? ==> Member(fetched.data, "trainers") == Some(Arr(out.1.entrenadores))
    ensures out.0.Err? ==> out.0 == Err(InternalServerError) && out.1 == svc
  {
    var l := Load(svc.entrenadores, fetched, "trainers");
    (l.result, EntrenadorService(l.cache))
  }

  /** `obtenerEntrenadores`: `{ entrenadores: <the list> }`, the state untouched. */
  function ObtenerEntrenadores(svc: EntrenadorService): (v: Value)
    ensures Member(v, "entrenadores") == Some(Arr(svc.entrenadores))
  {
    Listing(svc.entrenadores, "entrenadores")
  }

  /** `obtenerEntrenadorPorId`: the first record with that id. When no record
      is `null` or `undefined`, 404 comes exactly when none has the id. */
  function ObtenerEntrenadorPorId(svc: EntrenadorService, id: int): (r: Result<Value>)
    ensures r.Ok? ==> exists i :: FirstWithId(svc.entrenadores, id, i) && svc.entrenadores[i] == r.value
    ensures (forall j :: 0 <= j < |svc.entrenadores| ==> !Nullish(svc.entrenadores[j])) ==>
              (r == Err(NotFound) <==> forall j :: 0 <= j < |svc.entrenadores| ==> !HasId(svc.entrenadores[j], id))
    ensures r.Err? ==> r.status in {NotFound, InternalServerError}
  {
    FindById(svc.entrenadores, id)
  }

  /** Until a load succeeds every lookup is 404. */
  lemma NotFoundBeforeLoad(attempts: seq<Fetched>, id: int)
    requires forall i :: 0 <= i < |attempts| ==> !Succeeds(attempts[i], "trainers")
    ensures ObtenerEntrenadorPorId(EntrenadorService(LoadAll(Initial.entrenadores, attempts, "trainers")), id) == Err(NotFound)
  {
    FailedLoadsKeepCache([], attempts, "trainers");
  }
}

=== FILE: equipo.dfy ===
/** `EquipoService`: create, read, update and delete a Pokémon team. A team
    is a trimmed name and a roster of at most six Pokémon ids, persisted with
    the roster as a JSON text column. Validation failures are 400, an unknown
    team is 404, and every other failure is wrapped as 500; an `HttpException`
    thrown inside the service is re-thrown unchanged by its `catch`. */
module EquipoService {
  import opened Results
  import opened JsText
  import opened Codec
  import opened Oracle
  import opened Store

  /** The roster limit. */
  const MaxPokemones := 6

  /** The team as the service returns it, with the roster decoded. */
  datatype Equipo = Equipo(id: Id, nombre: string, pokemonesIds: seq<int>)

  /** `crearEquipo`. In order: the trainer id must parse (400), the roster
      must hold at most six ids (400), every id is sent to the oracle and all
      must exist (400), then `sp_CrearEquipo` (call 0) inserts the team (500
      if it throws). Duplicate ids and an empty trimmed name are accepted. */
  function CrearEquipo(db: Database, faults: Faults, api: Api, entrenadorId: string,
                       nombre: string, pokemonIds: seq<int>): (s: Step<Equipo>)
    ensures ParseInt(entrenadorId).None? ==> s == Step(Err(BadRequest), db, [])
    ensures |pokemonIds| > MaxPokemones ==> s == Step(Err(BadRequest), db, [])
    ensures ParseInt(entrenadorId).Some? && |pokemonIds| <= MaxPokemones ==> s.probed == pokemonIds
    ensures s.result.Ok? <==>
              && ParseInt(entrenadorId).Some?
              && |pokemonIds| <= MaxPokemones
              && AllExist(api, pokemonIds)
              && !faults.Throws(0)
    ensures s.result.Ok? ==>
              && s.result.value.id !in db.equipos
              && s.result.value.nombre == Trim(nombre)
              && s.result.value.pokemonesIds == pokemonIds
              && s.db.equipos == db.equipos[s.result.value.id :=
                   EquipoRow(ParseInt(entrenadorId).value, Trim(nombre), Stringify(pokemonIds))]
              && s.db.equiposEntrenador == db.equiposEntrenador
    ensures s.result.Err? ==> s.db == db
    ensures s.result == Err(BadRequest) <==>
              ParseInt(entrenadorId).None? || |pokemonIds| > MaxPokemones || !AllExist(api, pokemonIds)
    ensures s.result == Err(InternalServerError) <==>
              && ParseInt(entrenadorId).Some?
              && |pokemonIds| <= MaxPokemones
              && AllExist(api, pokemonIds)
              && faults.Throws(0)
  {
    match ParseInt(entrenadorId)
    case None => Step(Err(BadRequest), db, [])
    case Some(numericId) =>
      if |pokemonIds| > MaxPokemones then Step(Err(BadRequest), db, [])
      else
        var answers := Probe(api, pokemonIds);
        NoneMissing(api, pokemonIds);
        if false in answers then Step(Err(BadRequest), db, pokemonIds)
        else if faults.Throws(0) then Step(Err(InternalServerError), db, pokemonIds)
        else
          var (id, db') := InsertEquipo(db, EquipoRow(numericId, Trim(nombre), Stringify(pokemonIds)));
          Step(Ok(Equipo(id, Trim(nombre), pokemonIds)), db', pokemonIds)
  }

  /** `obtenerEquipo`: the query (call 0) reads the row; an absent row is
      404, re-thrown as is rather than wrapped as 500. */
  function ObtenerEquipo(db: Database, faults: Faults, equipoId: Id): (r: Result<Equipo>)
    ensures r.Ok? <==> !faults.Throws(0) && equipoId in db.equipos
    ensures r == Err(NotFound) <==> !faults.Throws(0) && equipoId !in db.equipos
    ensures r.Err? ==> r.status in {NotFound, InternalServerError}
    ensures r.Ok? ==>
              && r.value.id == equipoId
              && r.value.nombre == db.equipos[equipoId].nombre
              && Stringify(r.value.pokemonesIds) == db.equipos[equipoId].pokemonesIds
  {
    if faults.Throws(0) then Err(InternalServerError)
    else if equipoId !in db.equipos then Err(NotFound)
    else
      var row := db.equipos[equipoId];
      Ok(Equipo(equipoId, row.nombre, Parse(row.pokemonesIds)))
  }

  /** `actualizarEquipo`. The roster limit is checked first (400); every id
      is then sent to the oracle but the answers are discarded; the existence
      query (call 0) must find the team (404); `sp_ActualizarEquipo` (call 1)
      replaces name and roster and nothing else. */
  function ActualizarEquipo(db: Database, faults: Faults, api: Api, equipoId: Id,
                            nombre: string, pokemonIds: seq<int>): (s: Step<Equipo>)
    ensures |pokemonIds| > MaxPokemones ==> s == Step(Err(BadRequest), db, [])
    ensures |pokemonIds| <= MaxPokemones ==> s.probed == pokemonIds
    ensures s.result.Ok? <==>
              |pokemonIds| <= MaxPokemones && equipoId in db.equipos && !faults.Throws(0) && !faults.Throws(1)
    ensures s.result.Ok? ==>
              && s.result.value == Equipo(equipoId, Trim(nombre), pokemonIds)
              && s.db.equipos == db.equipos[equipoId :=
                   db.equipos[equipoId].(nombre := Trim(nombre), pokemonesIds := Stringify(pokemonIds))]
              && s.db.equiposEntrenador == db.equiposEntrenador
    ensures s.result.Err? ==> s.db == db
    ensures s.result == Err(BadRequest) <==> |pokemonIds| > MaxPokemones
    ensures s.result == Err(NotFound) <==>
              |pokemonIds| <= MaxPokemones && !faults.Throws(0) && equipoId !in db.equipos
    ensures s.result == Err(InternalServerError) <==>
              |pokemonIds| <= MaxPokemones && (faults.Throws(0) || (equipoId in db.equipos && faults.Throws(1)))
  {
    if |pokemonIds| > MaxPokemones then Step(Err(BadRequest), db, [])
    else if faults.Throws(0) then Step(Err(InternalServerError), db, pokemonIds)
    else if equipoId !in db.equipos then Step(Err(NotFound), db, pokemonIds)
    else if faults.Throws(1) then Step(Err(InternalServerError), db, pokemonIds)
    else
      var trimmed := Trim(nombre);
      Step(Ok(Equipo(equipoId, trimmed, pokemonIds)),
           UpdateEquipo(db, equipoId, trimmed, Stringify(pokemonIds)), pokemonIds)
  }

  /** `eliminarEquipo`: the existence query (call 0) must find the team
      (404); `sp_EliminarEquipo` (call 1) removes exactly that row. */
  function EliminarEquipo(db: Database, faults: Faults, equipoId: Id): (s: Step<()>)
    ensures s.probed == []
    ensures s.result.Ok? <==> equipoId in db.equipos && !faults.Throws(0) && !faults.Throws(1)
    ensures s.result.Ok? ==>
              s.db.equipos == db.equipos - {equipoId} && s.db.equiposEntrenador == db.equiposEntrenador
    ensures s.result.Err? ==> s.db == db
    ensures s.result == Err(NotFound) <==> !faults.Throws(0) && equipoId !in db.equipos
    ensures s.result == Err(InternalServerError) <==>
              faults.Throws(0) || (equipoId in db.equipos && faults.Throws(1))
  {
    if faults.Throws(0) then Step(Err(InternalServerError), db, [])
    else if equipoId !in db.equipos then Step(Err(NotFound), db, [])
    else if faults.Throws(1) then Step(Err(InternalServerError), db, [])
    else Step(Ok(()), DeleteEquipo(db, equipoId), [])
  }

  /** Reading a team just created returns it unchanged: the trimmed name and
      the roster in its original order, through the JSON round trip. */
  lemma CrearThenObtener(db: Database, faults: Faults, api: Api, entrenadorId: string,
                         nombre: string, pokemonIds: seq<int>)
    requires CrearEquipo(db, faults, api, entrenadorId, nombre, pokemonIds).result.Ok?
    ensures var s := CrearEquipo(db, faults, api, entrenadorId, nombre, pokemonIds);
            ObtenerEquipo(s.db, NoFault, s.result.value.id) == Ok(Equipo(s.result.value.id, Trim(nombre), pokemonIds))
  {
  }

  /** Reading a team just updated returns the new trimmed name and roster. */
  lemma ActualizarThenObtener(db: Database, faults: Faults, api: Api, equipoId: Id,
                              nombre: string, pokemonIds: seq<int>)
    requires ActualizarEquipo(db, faults, api, equipoId, nombre, pokemonIds).result.Ok?
    ensures ObtenerEquipo(ActualizarEquipo(db, faults, api, equipoId, nombre, pokemonIds).db, NoFault, equipoId)
            == Ok(Equipo(equipoId, Trim(nombre), pokemonIds))
  {
  }

  /** The oracle's answers do not gate an update: two transports that
      disagree on every id yield the same outcome and the same database. */
  lemma ActualizarIgnoresOracle(db: Database, faults: Faults, api1: Api, api2: Api, equipoId: Id,
                                nombre: string, pokemonIds: seq<int>)
    ensures ActualizarEquipo(db, faults, api1, equipoId, nombre, pokemonIds)
         == ActualizarEquipo(db, faults, api2, equipoId, nombre, pokemonIds)
  {
  }

  /** A deleted team can no longer be read. */
  lemma EliminarThenObtener(db: Database, faults: Faults, equipoId: Id)
    requires EliminarEquipo(db, faults, equipoId).result.Ok?
    ensures ObtenerEquipo(EliminarEquipo(db, faults, equipoId).db, NoFault, equipoId) == Err(NotFound)
  {
  }

  lemma ParseFive()
    ensures ParseInt("5") == Some(5)
  {
    ParseDecimal(5);
    assert DecimalString(5) == "5";
  }

  lemma TrimAshTeam()
    ensures Trim(" Ash Team ") == "Ash Team"
  {
    var s := " Ash Team ";
    assert s[1..9] == "Ash Team";
    assert s[..1] == " " && s[9..] == " ";
    assert Padding(s, "Ash Team", 1);
    TrimUnique(s, "Ash Team", 1);
  }

  /** Creating `" Ash Team "` for trainer `"5"` with roster [1, 4, 7], all
      known to the oracle, stores and returns the name `"Ash Team"` and the
      roster unchanged. */
  lemma AshTeamExample(db: Database, api: Api)
    requires Exists(api(1)) && Exists(api(4)) && Exists(api(7))
    ensures var s := CrearEquipo(db, NoFault, api, "5", " Ash Team ", [1, 4, 7]);
            && s.result.Ok?
            && s.result.value.nombre == "Ash Team"
            && s.result.value.pokemonesIds == [1, 4, 7]
  {
    ParseFive();
    TrimAshTeam();
    assert AllExist(api, [1, 4, 7]);
  }

  /** A roster of seven is refused before the oracle matters: whatever it
      answers, the outcome is 400 and nothing is written. */
  lemma SevenPokemonExample(db: Database, faults: Faults, api: Api)
    ensures CrearEquipo(db, faults, api, "5", "X", [1, 2, 3, 4, 5, 6, 7]) == Step(Err(BadRequest), db, [])
  {
  }
}

=== FILE: equipo_entrenador.dfy ===
/** `EquipoEntrenadorService`: the record linking a trainer to a list of team
    ids and a selected team. The service validates nothing, and its `catch`
    blocks wrap every failure, its own 404s included, as 500. Deleting a
    record first deletes each of its teams, one call at a time, with no
    rollback when a call fails. */
module EquipoEntrenadorService {
  import opened Results
  import opened Codec
  import opened Store

  /** The record as the service returns it, with `equiposIds` decoded. */
  datatype EquipoEntrenador =
    EquipoEntrenador(id: Id, entrenadorId: int, equiposIds: seq<Id>, equipoSeleccionado: Id)

  /** The mapping from a stored row to the returned record. */
  function View(id: Id, row: EquipoEntrenadorRow): EquipoEntrenador {
    EquipoEntrenador(id, row.entrenadorId, Parse(row.equiposIds), row.equipoSeleccionado)
  }

  /** `crearEquipoEntrenador`: `sp_CrearEquipoEntrenador` (call 0) inserts
      the record as given. Neither the team ids, nor the trainer, nor the
      membership of `equipoSeleccionado` in `equiposIds` is checked. */
  function CrearEquipoEntrenador(db: Database, faults: Faults, entrenadorId: int,
                                 equiposIds: seq<Id>, equipoSeleccionado: Id): (s: Step<EquipoEntrenador>)
    ensures s.probed == []
    ensures s.result.Ok? <==> !faults.Throws(0)
    ensures s.result.Ok? ==>
              && s.result.value.id !in db.equiposEntrenador
              && s.result.value == EquipoEntrenador(s.result.value.id, entrenadorId, equiposIds, equipoSeleccionado)
              && s.db.equiposEntrenador == db.equiposEntrenador[s.result.value.id :=
                   EquipoEntrenadorRow(entrenadorId, Stringify(equiposIds), equipoSeleccionado)]
              && s.db.equipos == db.equipos
    ensures s.result.Err? ==> s.result.status == InternalServerError && s.db == db
  {
    if faults.Throws(0) then Step(Err(InternalServerError), db, [])
    else
      var (id, db') := InsertEquipoEntrenador(db, EquipoEntrenadorRow(entrenadorId, Stringify(equiposIds), equipoSeleccionado));
      Step(Ok(EquipoEntrenador(id, entrenadorId, equiposIds, equipoSeleccionado)), db', [])
  }

  /** `obtenerEquipoEntrenador`: the query (call 0) reads the record and its
      team ids are decoded in stored order. An absent record is 500: the 404
      thrown inside the `try` is caught and wrapped. */
  function ObtenerEquipoEntrenador(db: Database, faults: Faults, id: Id): (r: Result<EquipoEntrenador>)
    ensures r.Ok? <==> !faults.Throws(0) && id in db.equiposEntrenador
    ensures r.Ok? ==>
              && r.value.id == id
              && r.value.entrenadorId == db.equiposEntrenador[id].entrenadorId
              && Stringify(r.value.equiposIds) == db.equiposEntrenador[id].equiposIds
              && r.value.equipoSeleccionado == db.equiposEntrenador[id].equipoSeleccionado
    ensures r.Err? ==> r.status == InternalServerError
  {
    if faults.Throws(0) || id !in db.equiposEntrenador then Err(InternalServerError)
    else Ok(View(id, db.equiposEntrenador[id]))
  }

  /** The records of trainer `entrenadorId` among keys `from` up to the
      identity counter, in key order: the rows the query
      `WHERE entrenadorId = @param0` selects, read in clustered-key order. */
  function Scan(db: Database, entrenadorId: int, from: Id): (rs: seq<EquipoEntrenador>)
    ensures forall k :: 0 <= k < |rs| ==>
              && from <= rs[k].id
              && rs[k].id in db.equiposEntrenador
              && rs[k] == View(rs[k].id, db.equiposEntrenador[rs[k].id])
              && rs[k].entrenadorId == entrenadorId
    ensures forall id ::
              (id in db.equiposEntrenador && from <= id && db.equiposEntrenador[id].entrenadorId == entrenadorId) ==>
              View(id, db.equiposEntrenador[id]) in rs
    ensures forall i, j :: 0 <= i < j < |rs| ==> rs[i].id < rs[j].id
    decreases db.nextEquipoEntrenador - from
  {
    if from >= db.nextEquipoEntrenador then []
    else
      var rest := Scan(db, entrenadorId, from + 1);
      if from in db.equiposEntrenador && db.equiposEntrenador[from].entrenadorId == entrenadorId
      then [View(from, db.equiposEntrenador[from])] + rest
      else rest
  }

  /** `obtenerEquiposPorEntrenador`: every record of the trainer, decoded.
      No matching record is an error, not an empty list, and like every
      other error it leaves the service as 500. */
  function ObtenerEquiposPorEntrenador(db: Database, faults: Faults, entrenadorId: int)
    : (r: Result<seq<EquipoEntrenador>>)
    ensures r.Err? <==>
              faults.Throws(0) ||
              forall id :: id in db.equiposEntrenador ==> db.equiposEntrenador[id].entrenadorId != entrenadorId
    ensures r.Err? ==> r.status == InternalServerError
    ensures r.Ok? ==> |r.value| > 0
    ensures r.Ok? ==> forall k :: 0 <= k < |r.value| ==>
              && r.value[k].entrenadorId == entrenadorId
              && r.value[k].id in db.equiposEntrenador
              && r.value[k] == View(r.value[k].id, db.equiposEntrenador[r.value[k].id])
    ensures r.Ok? ==> forall id ::
              (id in db.equiposEntrenador && db.equiposEntrenador[id].entrenadorId == entrenadorId) ==>
              View(id, db.equiposEntrenador[id]) in r.value
    ensures r.Ok? ==> forall i, j :: 0 <= i < j < |r.value| ==> r.value[i].id != r.value[j].id
  {
    if faults.Throws(0) then Err(InternalServerError)
    else
      var rs := Scan(db, entrenadorId, 0);
      if rs == [] then Err(InternalServerError)
      else
        assert db.equiposEntrenador[rs[0].id].entrenadorId == entrenadorId;
        Ok(rs)
  }

  /** `actualizarEquipoEntrenador`: the existence query (call 0) must find
      the record, then `sp_ActualizarEquipoEntrenador` (call 1) replaces all
      of its columns; the key is kept. */
  function ActualizarEquipoEntrenador(db: Database, faults: Faults, id: Id, entrenadorId: int,
                                      equiposIds: seq<Id>, equipoSeleccionado: Id): (s: Step<EquipoEntrenador>)
    ensures s.probed == []
    ensures s.result.Ok? <==> id in db.equiposEntrenador && !faults.Throws(0) && !faults.Throws(1)
    ensures s.result.Ok? ==>
              && s.result.value == EquipoEntrenador(id, entrenadorId, equiposIds, equipoSeleccionado)
              && s.db.equiposEntrenador == db.equiposEntrenador[id :=
                   EquipoEntrenadorRow(entrenadorId, Stringify(equiposIds), equipoSeleccionado)]
              && s.db.equipos == db.equipos
    ensures s.result.Err? ==> s.result.status == InternalServerError && s.db == db
  {
    if faults.Throws(0) || id !in db.equiposEntrenador || faults.Throws(1) then
      Step(Err(InternalServerError), db, [])
    else
      Step(Ok(EquipoEntrenador(id, entrenadorId, equiposIds, equipoSeleccionado)),
           UpdateEquipoEntrenador(db, id, EquipoEntrenadorRow(entrenadorId, Stringify(equiposIds), equipoSeleccionado)),
           [])
  }

  /** Reading a record just created returns exactly what the create
      returned: the fresh id and the inputs, team ids in input order. */
  lemma CrearThenObtenerEquipoEntrenador(db: Database, faults: Faults, entrenadorId: int,
                                         equiposIds: seq<Id>, equipoSeleccionado: Id)
    requires CrearEquipoEntrenador(db, faults, entrenadorId, equiposIds, equipoSeleccionado).result.Ok?
    ensures var s := CrearEquipoEntrenador(db, faults, entrenadorId, equiposIds, equipoSeleccionado);
            ObtenerEquipoEntrenador(s.db, NoFault, s.result.value.id) == Ok(s.result.value)
  {
    var s := CrearEquipoEntrenador(db, faults, entrenadorId, equiposIds, equipoSeleccionado);
    var r := ObtenerEquipoEntrenador(s.db, NoFault, s.result.value.id);
    StringifyInjective(r.value.equiposIds, equiposIds);
  }

  /** Reading a record just updated returns the new columns under the same id. */
  lemma ActualizarThenObtenerEquipoEntrenador(db: Database, faults: Faults, id: Id, entrenadorId: int,
                                              equiposIds: seq<Id>, equipoSeleccionado: Id)
    requires ActualizarEquipoEntrenador(db, faults, id, entrenadorId, equiposIds, equipoSeleccionado).result.Ok?
    ensures ObtenerEquipoEntrenador(
              ActualizarEquipoEntrenador(db, faults, id, entrenadorId, equiposIds, equipoSeleccionado).db, NoFault, id)
            == Ok(EquipoEntrenador(id, entrenadorId, equiposIds, equipoSeleccionado))
  {
    var s := ActualizarEquipoEntrenador(db, faults, id, entrenadorId, equiposIds, equipoSeleccionado);
    StringifyInjective(ObtenerEquipoEntrenador(s.db, NoFault, id).value.equiposIds, equiposIds);
  }

  /** The cascade: `sp_EliminarEquipo` for each id in list order, the first
      one being database call `call`. The first call that throws stops the
      loop; teams deleted before it stay deleted. */
  function Cascade(db: Database, faults: Faults, ids: seq<Id>, call: nat): (s: Step<()>)
    ensures s.probed == []
    ensures s.db.equiposEntrenador == db.equiposEntrenador
    ensures s.result.Ok? <==> !(faults.FailAt? && call <= faults.call < call + |ids|)
    ensures s.result.Ok? ==> s.db.equipos == db.equipos - Elems(ids)
    ensures s.result.Err? ==>
              && s.result.status == InternalServerError
              && s.db.equipos == db.equipos - Elems(ids[..faults.call - call])
    decreases ids
  {
    if ids == [] then Step(Ok(()), db, [])
    else if faults.Throws(call) then Step(Err(InternalServerError), db, [])
    else
      var s := Cascade(DeleteEquipo(db, ids[0]), faults, ids[1..], call + 1);
      assert Elems(ids) == {ids[0]} + Elems(ids[1..]);
      assert s.result.Err? ==> ids[..faults.call - call] == [ids[0]] + ids[1..][..faults.call - call - 1];
      s
  }

  /** `eliminarEquipoEntrenador`: the query (call 0) reads the record, its
      teams are deleted in order (calls 1 to |equiposIds|), then
      `sp_EliminarEquipoEntrenador` (call |equiposIds| + 1) removes the
      record itself. Any failure is 500 and stops the sequence where it is. */
  function EliminarEquipoEntrenador(db: Database, faults: Faults, id: Id): (s: Step<()>)
    ensures s.probed == []
    ensures faults.Throws(0) || id !in db.equiposEntrenador ==> s == Step(Err(InternalServerError), db, [])
    ensures s.result.Err? ==> s.result.status == InternalServerError
    ensures id in db.equiposEntrenador && !faults.Throws(0) ==>
              var ids := Parse(db.equiposEntrenador[id].equiposIds);
              && (s.result.Ok? <==> !(faults.FailAt? && 1 <= faults.call <= |ids| + 1))
              && (s.result.Ok? ==>
                    && s.db.equipos == db.equipos - Elems(ids)
                    && s.db.equiposEntrenador == db.equiposEntrenador - {id})
              && (faults.FailAt? && 1 <= faults.call <= |ids| ==>
                    && s.db.equipos == db.equipos - Elems(ids[..faults.call - 1])
                    && s.db.equiposEntrenador == db.equiposEntrenador)
              && (faults == FailAt(|ids| + 1) ==>
                    && s.db.equipos == db.equipos - Elems(ids)
                    && s.db.equiposEntrenador == db.equiposEntrenador)
  {
    if faults.Throws(0) || id !in db.equiposEntrenador then Step(Err(InternalServerError), db, [])
    else
      var ids := Parse(db.equiposEntrenador[id].equiposIds);
      var c := Cascade(db, faults, ids, 1);
      if c.result.Err? then Step(Err(InternalServerError), c.db, [])
      else if faults.Throws(|ids| + 1) then Step(Err(InternalServerError), c.db, [])
      else Step(Ok(()), DeleteEquipoEntrenador(c.db, id), [])
  }
}

=== FILE: js_text.dfy ===
/** The two JavaScript string primitives the team service relies on:
    `String.prototype.trim` (applied to team names) and `Number.parseInt` with
    no radix argument (applied to the trainer id), following the algorithms of
    ECMA-262. Strings are sequences of `char`; a JavaScript UTF-16 code unit
    and a Dafny `char` coincide on every character these functions inspect. */
module JsText {
  import opened Results

  /** ECMAScript white space and line terminators: the characters both
      `trim` and `parseInt` strip (TAB, LF, VT, FF, CR, the Unicode space
      separators, LINE and PARAGRAPH SEPARATOR and the byte order mark). */
  predicate IsSpace(c: char) {
    || c == '\t' || c == '\n' || c == '\U{B}' || c == '\U{C}' || c == '\r'
    || c == ' ' || c == '\U{A0}' || c == '\U{1680}'
    || ('\U{2000}' <= c <= '\U{200A}')
    || c == '\U{2028}' || c == '\U{2029}' || c == '\U{202F}' || c == '\U{205F}'
    || c == '\U{3000}' || c == '\U{FEFF}'
  }

  predicate AllSpace(t: string) {
    forall k :: 0 <= k < |t| ==> IsSpace(t[k])
  }

  /** Length of the longest all-space prefix of `s`. */
  function LeadingSpaces(s: string): (n: nat)
    ensures n <= |s|
    ensures forall k :: 0 <= k < n ==> IsSpace(s[k])
    ensures n < |s| ==> !IsSpace(s[n])
  {
    if |s| > 0 && IsSpace(s[0]) then 1 + LeadingSpaces(s[1..]) else 0
  }

  /** Length of the longest all-space suffix of `s`. */
  function TrailingSpaces(s: string): (n: nat)
    ensures n <= |s|
    ensures forall k :: |s| - n <= k < |s| ==> IsSpace(s[k])
    ensures n < |s| ==> !IsSpace(s[|s| - 1 - n])
  {
    if |s| > 0 && IsSpace(s[|s| - 1]) then 1 + TrailingSpaces(s[..|s| - 1]) else 0
  }

  /** `r` occurs in `s` at offset `i` and everything around it is white space. */
  predicate Padding(s: string, r: string, i: int) {
    && 0 <= i && i + |r| <= |s|
    && s[i..i + |r|] == r
    && AllSpace(s[..i])
    && AllSpace(s[i + |r|..])
  }

  /** `String.prototype.trim`: `s` without its leading and trailing white
      space. The result sits inside `s` between two all-space margins and
      neither starts nor ends with white space; `TrimUnique` shows that these
      two facts determine it. */
  function Trim(s: string): (r: string)
    ensures exists i :: Padding(s, r, i)
    ensures r == [] || (!IsSpace(r[0]) && !IsSpace(r[|r| - 1]))
  {
    var i := LeadingSpaces(s);
    var t := s[i..];
    var r := t[..|t| - TrailingSpaces(t)];
    assert s[i..i + |r|] == r;
    assert s[i + |r|..] == t[|r|..];
    assert Padding(s, r, i);
    r
  }

  /** Any infix of `s` padded by white space and not itself starting or
      ending with white space is `Trim(s)`. */
  lemma TrimUnique(s: string, r: string, i: int)
    requires Padding(s, r, i)
    requires r == [] || (!IsSpace(r[0]) && !IsSpace(r[|r| - 1]))
    ensures Trim(s) == r
  {
  }

  lemma TrimIdempotent(s: string)
    ensures Trim(Trim(s)) == Trim(s)
  {
  }

  /** Value of `c` as a digit in any radix up to 36; 36 when `c` is no digit. */
  function DigitValue(c: char): (d: nat)
    ensures d <= 36
  {
    if '0' <= c <= '9' then c as int - '0' as int
    else if 'a' <= c <= 'z' then c as int - 'a' as int + 10
    else if 'A' <= c <= 'Z' then c as int - 'A' as int + 10
    else 36
  }

  /** Length of the longest prefix of `s` made of digits of `radix`. */
  function DigitPrefix(s: string, radix: nat): (n: nat)
    ensures n <= |s|
    ensures forall k :: 0 <= k < n ==> DigitValue(s[k]) < radix
    ensures n < |s| ==> DigitValue(s[n]) >= radix
  {
    if |s| > 0 && DigitValue(s[0]) < radix then 1 + DigitPrefix(s[1..], radix) else 0
  }

  /** The number a digit string denotes in `radix`, most significant first. */
  function ValueOf(digits: string, radix: nat): nat {
    if digits == [] then 0
    else ValueOf(digits[..|digits| - 1], radix) * radix + DigitValue(digits[|digits| - 1])
  }

  /** The unsigned part of `parseInt`: after a `0x`/`0X` prefix read radix
      16, otherwise radix 10, and take the longest run of digits; `None` when
      that run is empty. */
  function Magnitude(u: string): Option<nat> {
    var hex := |u| >= 2 && u[0] == '0' && (u[1] == 'x' || u[1] == 'X');
    var radix := if hex then 16 else 10;
    var w := if hex then u[2..] else u;
    var n := DigitPrefix(w, radix);
    if n == 0 then None else Some(ValueOf(w[..n], radix))
  }

  /** `Number.parseInt(s)` with no radix: skip leading white space, read an
      optional sign, then the magnitude. `None` stands for `NaN`, which is
      what `crearEquipo` tests with `isNaN`. */
  function ParseInt(s: string): Option<int> {
    var t := s[LeadingSpaces(s)..];
    var sign := if |t| > 0 && t[0] == '-' then -1 else 1;
    var u := if |t| > 0 && (t[0] == '+' || t[0] == '-') then t[1..] else t;
    match Magnitude(u)
    case None => None
    case Some(m) => Some(sign * m)
  }

  function DecimalDigit(d: nat): char
    requires d < 10
  {
    ('0' as int + d) as char
  }

  /** Decimal rendering of a natural number, without leading zeros. */
  function NatString(n: nat): string {
    if n < 10 then [DecimalDigit(n)] else NatString(n / 10) + [DecimalDigit(n % 10)]
  }

  /** Decimal rendering of an integer, as `String(n)` writes it. */
  function DecimalString(n: int): string {
    if n < 0 then "-" + NatString(-n) else NatString(n)
  }

  lemma {:induction false} NatStringDigits(n: nat)
    ensures |NatString(n)| >= 1
    ensures forall k :: 0 <= k < |NatString(n)| ==> DigitValue(NatString(n)[k]) < 10
  {
    if n >= 10 {
      NatStringDigits(n / 10);
    }
  }

  lemma {:induction false} NatStringValue(n: nat)
    ensures ValueOf(NatString(n), 10) == n
  {
    if n >= 10 {
      var p := NatString(n / 10);
      assert (p + [DecimalDigit(n % 10)])[..|p|] == p;
      NatStringValue(n / 10);
    }
  }

  lemma DecimalDigitChar(c: char)
    requires DigitValue(c) < 10
    ensures '0' <= c <= '9'
  {
  }

  lemma MagnitudeOfDigits(u: string)
    requires |u| >= 1
    requires forall k :: 0 <= k < |u| ==> DigitValue(u[k]) < 10
    ensures Magnitude(u) == Some(ValueOf(u, 10))
  {
    if |u| >= 2 {
      DecimalDigitChar(u[1]);
    }
    var n := DigitPrefix(u, 10);
    assert n == |u|;
    assert u[..n] == u;
  }

  /** `parseInt` of a string that starts with a decimal digit is its magnitude. */
  lemma ParseUnsigned(u: string)
    requires |u| >= 1 && DigitValue(u[0]) < 10
    ensures ParseInt(u) == Magnitude(u)
  {
    DecimalDigitChar(u[0]);
    assert LeadingSpaces(u) == 0;
    assert u[0..] == u;
  }

  /** `parseInt` of `-` followed by a magnitude is its negation. */
  lemma ParseNegative(u: string)
    ensures ParseInt("-" + u) == (match Magnitude(u) case None => None case Some(m) => Some(0 - m))
  {
    var s := "-" + u;
    assert LeadingSpaces(s) == 0;
    assert s[0..] == s;
    assert s[1..] == u;
  }

  /** Every decimal rendering of an integer parses back to that integer. */
  lemma ParseDecimal(n: int)
    ensures ParseInt(DecimalString(n)) == Some(n)
  {
    var m: nat := if n < 0 then -n else n;
    var u := NatString(m);
    NatStringDigits(m);
    NatStringValue(m);
    MagnitudeOfDigits(u);
    if n < 0 {
      ParseNegative(u);
    } else {
      ParseUnsigned(u);
    }
  }

  /** A string with no decimal digit at all is `NaN` to `parseInt`. */
  lemma NoDigitIsNaN(s: string)
    requires forall k :: 0 <= k < |s| ==> !('0' <= s[k] <= '9')
    ensures ParseInt(s) == None
  {
  }
}

=== FILE: js_value.dfy ===
/** The untyped (`any`) values the temporary services receive from upstream:
    parsed JSON plus `undefined`. Numbers are restricted to integers. */
module JsValue {
  import opened Results

  datatype Value =
    | Undefined
    | Null
    | Bool(b: bool)
    | Num(n: int)
    | Str(s: string)
    | Arr(items: seq<Value>)
    | Obj(fields: map<string, Value>)

  predicate Nullish(v: Value) {
    v.Undefined? || v.Null?
  }

  /** JavaScript truthiness, the test behind `!v`. */
  predicate Truthy(v: Value) {
    match v
    case Undefined => false
    case Null => false
    case Bool(b) => b
    case Num(n) => n != 0
    case Str(s) => s != ""
    case Arr(_) => true
    case Obj(_) => true
  }

  /** Property access `v.key`: `None` when `v` is `null` or `undefined`,
      where JavaScript throws a `TypeError`; `undefined` for a key an object
      lacks. Only own keys of objects are modelled: the keys read here
      (`pokemones`, `trainers`, `id`) are no built-in property of any other
      kind of value. */
  function Member(v: Value, key: string): (r: Option<Value>)
    ensures r.None? <==> Nullish(v)
    ensures v.Obj? ==> r == Some(if key in v.fields then v.fields[key] else Undefined)
    ensures !Nullish(v) && !v.Obj? ==> r == Some(Undefined)
  {
    match v
    case Undefined => None
    case Null => None
    case Obj(fields) => Some(if key in fields then fields[key] else Undefined)
    case _ => Some(Undefined)
  }
}

=== FILE: oracle.dfy ===
/** The existence oracle behind `getPokemon` and `getEntrenador`: one GET
    request per id against an upstream service. The transport is a parameter:
    an `Api` maps each id to the reply that request would receive. */
module Oracle {

  /** What awaiting one request yields: a reply with its status code, or a
      rejection (network failure, or the client rejecting a non-2xx status). */
  datatype Response = Reply(status: int) | Rejected

  type Api = int -> Response

  /** `getPokemon`: fail-closed. True exactly for a reply whose status is
      200; every other reply and every rejection is caught and read as
      "does not exist", so the call never throws. */
  function Exists(r: Response): (b: bool)
    ensures b <==> r.Reply? && r.status == 200
  {
    match r
    case Rejected => false
    case Reply(status) => status == 200
  }

  /** The answers to one request per id, all of them issued before any is
      inspected (`Promise.all` over `map`). */
  function Probe(api: Api, ids: seq<int>): (answers: seq<bool>)
    ensures |answers| == |ids|
    ensures forall i :: 0 <= i < |ids| ==> answers[i] == Exists(api(ids[i]))
  {
    seq(|ids|, i requires 0 <= i < |ids| => Exists(api(ids[i])))
  }

  /** Every id passes the oracle. */
  predicate AllExist(api: Api, ids: seq<int>) {
    forall i :: 0 <= i < |ids| ==> Exists(api(ids[i]))
  }

  /** `answers.some(exists => !exists)` is false exactly when every id
      passes, whatever its position. */
  lemma NoneMissing(api: Api, ids: seq<int>)
    ensures false !in Probe(api, ids) <==> AllExist(api, ids)
  {
  }
}

=== FILE: pokemon_catalog.dfy ===
/** The temporary `PokemonService`: Pokémon records loaded once from a mock
    endpoint into an in-memory list, then listed and looked up by id. */
module PokemonCatalog {
  import opened Results
  import opened JsValue
  import opened Catalog

  /** The service's only state, its `pokemones` list. */
  datatype PokemonService = PokemonService(pokemones: seq<Value>)

  /** The list starts empty. */
  const Initial := PokemonService([])

  /** `cargarPokemones`: a payload whose `pokemones` is an array replaces the
      list by that array; anything else is 500 and keeps the list. */
  function CargarPokemones(svc: PokemonService, fetched: Fetched): (out: (Result<()>, PokemonService))
    ensures out.0.Ok? <==> Succeeds(fetched, "pokemones")
    ensures out.0.Ok? ==> Member(fetched.data, "pokemones") == Some(Arr(out.1.pokemones))
    ensures out.0.Err? ==> out.0 == Err(InternalServerError) && out.1 == svc
  {
    var l := Load(svc.pokemones, fetched, "pokemones");
    (l.result, PokemonService(l.cache))
  }

  /** `obtenerPokemones`: `{ pokemones: <the list> }`, the state untouched. */
  function ObtenerPokemones(svc: PokemonService): (v: Value)
    ensures Member(v, "pokemones") == Some(Arr(svc.pokemones))
  {
    Listing(svc.pokemones, "pokemones")
  }

  /** `obtenerPokemonPorId`: the first record with that id. When no record is
      `null` or `undefined`, 404 comes exactly when none has the id. */
  function ObtenerPokemonPorId(svc: PokemonService, id: int): (r: Result<Value>)
    ensures r.Ok? ==> exists i :: FirstWithId(svc.pokemones, id, i) && svc.pokemones[i] == r.value
    ensures (forall j :: 0 <= j < |svc.pokemones| ==> !Nullish(svc.pokemones[j])) ==>
              (r == Err(NotFound) <==> forall j :: 0 <= j < |svc.pokemones| ==> !HasId(svc.pokemones[j], id))
    ensures r.Err? ==> r.status in {NotFound, InternalServerError}
  {
    FindById(svc.pokemones, id)
  }

  /** Until a load succeeds every lookup is 404. */
  lemma NotFoundBeforeLoad(attempts: seq<Fetched>, id: int)
    requires forall i :: 0 <= i < |attempts| ==> !Succeeds(attempts[i], "pokemones")
    ensures ObtenerPokemonPorId(PokemonService(LoadAll(Initial.pokemones, attempts, "pokemones")), id) == Err(NotFound)
  {
    FailedLoadsKeepCache([], attempts, "pokemones");
  }
}

=== FILE: results.dfy ===
/** Failure-carrying datatypes shared by the services: an optional value, the
    HTTP statuses the services raise through `HttpException`, and a result that
    is either a value or one of those statuses. */
module Results {

  datatype Option<+T> = None | Some(value: T)

  /** The statuses the services signal: 400, 404 and 500. */
  datatype Status = BadRequest | NotFound | InternalServerError

  /** The outcome of an operation: its value, or the status of the
      `HttpException` it throws. */
  datatype Result<+T> = Ok(value: T) | Err(status: Status)
}

=== FILE: store.dfy ===
/** The SQL database both services reach through `query` and `execute`,
    reduced to its two tables, `Equipos` and `EquiposEntrenador`, each keyed
    by an identity column. The stored procedures' bodies are not visible;
    they are modelled as the primitives their names describe: `sp_Crear*`
    inserts under the next identity value, `sp_Actualizar*` replaces the
    columns it is given and `sp_Eliminar*` deletes by key. */
module Store {
  import opened Results
  import opened Codec

  /** Record ids of both tables. */
  type Id = nat

  /** A row of `Equipos`. `sp_CrearEquipo` receives the trainer id too, so
      the row keeps it; no query of the services reads it back. */
  datatype EquipoRow = EquipoRow(entrenadorId: int, nombre: string, pokemonesIds: Json<int>)

  /** A row of `EquiposEntrenador`. */
  datatype EquipoEntrenadorRow =
    EquipoEntrenadorRow(entrenadorId: int, equiposIds: Json<Id>, equipoSeleccionado: Id)

  datatype Tables = Tables(
    equipos: map<Id, EquipoRow>,
    nextEquipo: Id,
    equiposEntrenador: map<Id, EquipoEntrenadorRow>,
    nextEquipoEntrenador: Id)
  {
    /** Every key lies below its table's identity counter, so the counter is
        always a fresh key. */
    predicate Valid() {
      && (forall k :: k in equipos ==> k < nextEquipo)
      && (forall k :: k in equiposEntrenador ==> k < nextEquipoEntrenador)
    }
  }

  type Database = t: Tables | t.Valid() witness Tables(map[], 0, map[], 0)

  /** Which database call fails. Calls are numbered from 0 in the order an
      operation issues them; `FailAt(k)` makes call `k` throw, and no later
      call is then issued. */
  datatype Faults = NoFault | FailAt(call: nat) {
    predicate Throws(k: nat) {
      FailAt? && call == k
    }
  }

  /** The effect of one service operation: its outcome, the database after
      it, and the ids it sent to the existence oracle, in order. */
  datatype Step<T> = Step(result: Result<T>, db: Database, probed: seq<int>)

  /** The set of elements of a sequence. */
  function Elems<T>(xs: seq<T>): set<T> {
    set x | x in xs
  }

  /** `sp_CrearEquipo`: inserts `row` under a key the table did not hold. */
  function InsertEquipo(db: Database, row: EquipoRow): (out: (Id, Database))
    ensures out.0 !in db.equipos
    ensures out.1.equipos == db.equipos[out.0 := row]
    ensures out.1.equiposEntrenador == db.equiposEntrenador
  {
    (db.nextEquipo, db.(equipos := db.equipos[db.nextEquipo := row], nextEquipo := db.nextEquipo + 1))
  }

  /** `sp_ActualizarEquipo`: replaces name and roster of an existing row. */
  function UpdateEquipo(db: Database, id: Id, nombre: string, pokemonesIds: Json<int>): (db': Database)
    requires id in db.equipos
    ensures db'.equipos.Keys == db.equipos.Keys
    ensures db'.equipos[id] == db.equipos[id].(nombre := nombre, pokemonesIds := pokemonesIds)
    ensures forall k :: k in db.equipos && k != id ==> db'.equipos[k] == db.equipos[k]
    ensures db'.equiposEntrenador == db.equiposEntrenador
  {
    db.(equipos := db.equipos[id := db.equipos[id].(nombre := nombre, pokemonesIds := pokemonesIds)])
  }

  /** `sp_EliminarEquipo`: removes the row with key `id`, if any. */
  function DeleteEquipo(db: Database, id: Id): (db': Database)
    ensures db'.equipos == db.equipos - {id}
    ensures db'.equiposEntrenador == db.equiposEntrenador
  {
    db.(equipos := db.equipos - {id})
  }

  /** `sp_CrearEquipoEntrenador`: inserts `row` under a key the table did not hold. */
  function InsertEquipoEntrenador(db: Database, row: EquipoEntrenadorRow): (out: (Id, Database))
    ensures out.0 !in db.equiposEntrenador
    ensures out.1.equiposEntrenador == db.equiposEntrenador[out.0 := row]
    ensures out.1.equipos == db.equipos
  {
    (db.nextEquipoEntrenador,
     db.(equiposEntrenador := db.equiposEntrenador[db.nextEquipoEntrenador := row],
         nextEquipoEntrenador := db.nextEquipoEntrenador + 1))
  }

  /** `sp_ActualizarEquipoEntrenador`: replaces every column of an existing row. */
  function UpdateEquipoEntrenador(db: Database, id: Id, row: EquipoEntrenadorRow): (db': Database)
    requires id in db.equiposEntrenador
    ensures db'.equiposEntrenador == db.equiposEntrenador[id := row]
    ensures db'.equiposEntrenador.Keys == db.equiposEntrenador.Keys
    ensures db'.equipos == db.equipos
  {
    db.(equiposEntrenador := db.equiposEntrenador[id := row])
  }

  /** `sp_EliminarEquipoEntrenador`: removes the row with key `id`, if any. */
  function DeleteEquipoEntrenador(db: Database, id: Id): (db': Database)
    ensures db'.equiposEntrenador == db.equiposEntrenador - {id}
    ensures db'.equipos == db.equipos
  {
    db.(equiposEntrenador := db.equiposEntrenador - {id})
  }
}
